=== FILE: README.md ===
# Memomeet entitlement model

A Dafny model of the server routes of Memomeet, a meeting-summary service. Users buy credit packs or
subscribe through Stripe, and spend one credit per summarised recording. The model covers:

- the account entitlement state machine: the user table's `credits`, `subscription`, `isUnlimited` and
  `stripeCustomerId` columns, and every route that writes them:
  - the Stripe webhook (pack purchase, subscription created, invoice paid, subscription deleted);
  - the subscribe and unsubscribe routes;
  - the pack checkout route;
  - the debit in the processing route;
- the two string functions on the processing path:
  - the upload file-name sanitiser;
  - the split of the chat model's reply into a summary and a task list.

Every handler is modelled as one pure transition: from the user table (a sequence of rows in table order)
and the request's inputs to a response and a new table. Calls into Stripe and OpenAI, and the summary insert,
become inputs of type `Call<T>`, which either returns a value or throws. Prisma's reads and writes of the
user table are computed on the table itself; only an `update` of a missing row throws. Reading the uploaded
file is a lookup of its name in the set of names in the temporary directory. Other inputs are:

- the webhook's signature check, as a boolean;
- the unsubscribe route's "is there an active subscription" answer, as a boolean;
- the price id Stripe reports for an invoice's subscription;
- the chat model's reply text;
- the set of file names in the temporary directory.

An exception the handler does not catch becomes `Http.Crashed`, the framework's 500.

Files: `wrappers.dfy`, `http.dfy`, `accounts.dfy` (rows, Prisma look-ups, revoke), `prices.dfy` (price
tables), `webhook.dfy`, `stripe_requests.dfy`, `checkout.dfy`, `subscribe.dfy`, `unsubscribe.dfy`,
`text.dfy` (JavaScript `\s`, `trim`, UTF-16 length), `extraction.dfy` (regex split and task filter),
`file_names.dfy` (sanitiser), `process.dfy`, `upload.dfy`, `flows.dfy` (what one route sends to Stripe and
the webhook reads back).

## Code versus common billing guarantees

The model follows the code. The lemmas below show where the code falls short of what a billing service
of this kind would normally guarantee:

- A billing ledger normally applies each event at most once. Nothing records event ids, so a redelivered
  pack purchase is credited again (`Webhook.RedeliveredPurchaseCreditsTwice`).
- An activation would normally be refused while a tier is active. Only the subscribe route checks this.
  The webhook never checks and overwrites the tier (`Webhook.ActivationOverwritesTier`).
- A credit balance would normally never go negative, and unlimited users would not be debited. The
  processing route takes one credit with no check, from unlimited users too (`Process.DebitCanGoNegative`).
  So `credits` is an `int`, not a `nat`.
- A paid operation and its debit would normally be atomic. The code stores the summary first and debits
  afterwards. A failed debit leaves a stored, undebited summary (`Process.FailedDebitKeepsSummary`).

## Model

| member | source | states |
|---|---|---|
| Accounts.FindFirst | src/app/api/stripe/webhook/route.ts:62-64 | Prisma `findFirst`: the index of the first row matching the filter, or none exactly when no row matches |
| Accounts.Revoke | src/app/api/stripe/unsubscribe/route.ts:47-53 | revoking sets the tier to none and clears unlimited, keeping id, credits and customer reference |
| Accounts.RevokeIdempotent | src/app/api/stripe/unsubscribe/route.ts:47-53 | revoking a revoked row changes nothing |
| Accounts.RevokeCustomer | src/app/api/stripe/webhook/route.ts:109-115 | `updateMany`: every row holding the customer is revoked, every other row is untouched, no row added or lost |
| Accounts.RevokeCustomerIdempotent | src/app/api/stripe/webhook/route.ts:109-115 | revoking all rows of a customer twice equals doing it once |
| Prices.PackTablesRoundTrip | src/app/api/stripe/checkout/route.ts:11-14 | the checkout's pack-to-price table and the webhook's price-to-credits table are inverse: only packs 10 and 50 exist, and pack q's price grants q credits |
| Prices.CatalogsDisjoint | src/app/api/stripe/webhook/route.ts:13-21 | no price is both a one-time pack and a subscription plan |
| Prices.PlansAreConsistent | src/app/api/stripe/webhook/route.ts:18-21 | each plan has a paid tier, is unlimited exactly when the tier is pro, and a monthly plan grants 100 credits |
| Webhook.PackGrant | src/app/api/stripe/webhook/route.ts:42 | the pack lookup yields 10, 50, or the falsy 0 exactly when the (possibly absent) price is not a pack |
| Webhook.CompleteCheckout | src/app/api/stripe/webhook/route.ts:37-51 | without a user id or a pack price: acknowledged, no change; with both: the named user alone gains exactly the pack's credits, tier untouched; an unknown user id makes the update throw (500, no change) |
| Webhook.ActivateSubscription | src/app/api/stripe/webhook/route.ts:54-77 | unknown price or customer: acknowledged, no change; otherwise the first row of the customer gets the plan's tier, unlimited exactly for the pro price, and keeps its credits; other rows untouched |
| Webhook.PayInvoice | src/app/api/stripe/webhook/route.ts:80-102 | never changes a tier; no row for the customer: acknowledged, no change; a failed retrieval throws (500, no change); the standard price adds exactly 100 credits to that row alone; any other price changes nothing |
| Webhook.DeleteSubscription | src/app/api/stripe/webhook/route.ts:105-118 | every row of the customer gets tier none and not unlimited, keeping its credits; rows of other customers untouched |
| Webhook.Handle | src/app/api/stripe/webhook/route.ts:23-121 | a bad signature gives 400 and no change; an event of any other type is acknowledged and changes nothing; any non-200 answer changes nothing; no event lowers a balance, changes an id or a customer reference, or breaks "unlimited implies pro" |
| Webhook.HandlePreservesEntitlement | src/app/api/stripe/webhook/route.ts:36-118 | a table where every unlimited user is pro stays so after any event |
| Webhook.RedeliveredPurchaseCreditsTwice | src/app/api/stripe/webhook/route.ts:37-51 | the same pack-purchase event delivered twice credits the pack twice |
| Webhook.ActivationOverwritesTier | src/app/api/stripe/webhook/route.ts:54-77 | a pro activation after a standard one switches the row to pro and unlimited, with no cancellation between and credits unchanged |
| Webhook.ResubscribeAfterDeletion | src/app/api/stripe/webhook/route.ts:54-118 | deletion then a pro activation leaves the row pro and unlimited, credits unchanged |
| Webhook.DeletionIsIdempotent | src/app/api/stripe/webhook/route.ts:105-118 | a redelivered deletion changes nothing more |
| Webhook.ActivationAndInvoiceCommute | src/app/api/stripe/webhook/route.ts:54-102 | activation and invoice events for a customer give the same table in either order |
| Checkout.PackPrice | src/app/api/stripe/checkout/route.ts:11-29 | a price exists exactly for quantities 10 and 50, and the webhook credits that price with the same quantity |
| Checkout.Checkout | src/app/api/stripe/checkout/route.ts:17-54 | no session: 401; any other quantity: 400 "Pack invalide"; a valid session and pack always produce one payment-session request carrying the caller's id and the pack price as metadata; 200 with the session URL exactly when the Stripe call succeeds, 500 "Erreur Stripe" when it throws; the route takes no user table |
| Subscribe.OpenCheckout | src/app/api/stripe/subscribe/route.ts:47-65 | the subscription session request names the customer, the price, and metadata user id and price; 200 with the session URL when Stripe answers, the framework's 500 when it throws |
| Subscribe.Subscribe | src/app/api/stripe/subscribe/route.ts:13-66 | no session or email: 401, nothing created; a caller with a tier: 400, no customer created or stored; a caller without a customer whose creation throws: the framework's 500, nothing stored and no session; a created customer with no row to store it on: the framework's 500 with the customer recorded as created and no session; only the customer reference is ever written, and a set one is never overwritten; a session request is opened only for the caller's own untiered row, always naming the caller's stored customer, with the price passed through unchecked; then 200 with the URL, or the framework's 500 when the session call throws |
| Subscribe.MissingCustomerIsCreatedAndStored | src/app/api/stripe/subscribe/route.ts:29-45 | a caller without a customer reference gets the new one stored on their row alone, and the session uses it |
| Subscribe.ExistingCustomerIsReused | src/app/api/stripe/subscribe/route.ts:29-31 | a caller with a customer reference keeps it, no customer is created, and the session uses it |
| Unsubscribe.Unsubscribe | src/app/api/stripe/unsubscribe/route.ts:17-65 | no session id: 401; no row or no customer reference: 400; no active subscription: 400 and no change; a thrown call: 500 and no change; otherwise Stripe cancels, and that row alone gets tier none and not unlimited, keeping credits and customer, answered `success: true` |
| Unsubscribe.RevokeTransitionIsIdempotent | src/app/api/stripe/unsubscribe/route.ts:47-53 | a second successful unsubscribe leaves the table as the first left it |
| Text.Trim | src/app/api/process/route.ts:50-53 | the result starts and ends with no white space, is no longer than the input, and is empty exactly when the input is all white space |
| Text.TrimCutsOnlySpace | src/app/api/process/route.ts:50-53 | the result is a contiguous slice of the input, and everything cut before and after it is white space |
| Text.TrimFixesTrimmed | src/app/api/process/route.ts:53 | trimming a string without white space at either end returns it unchanged |
| Text.TrimIdempotent | src/app/api/process/route.ts:53 | trimming twice is trimming once |
| Text.Utf16Length | src/app/api/process/route.ts:54 | `length` counts at least one and at most two units per character, exactly one for each basic-plane character; a single character counts one exactly when it is in the basic plane |
| Text.Utf16LengthAppend | src/app/api/process/route.ts:54 | the length of a concatenation is the sum of the lengths, so with the single-character case the count is exact for every string |
| FileNames.Sanitize | src/app/api/upload/route.ts:23 | the sanitised name contains only `[A-Za-z0-9._-]` and is no longer than the original |
| FileNames.SanitizeAppend | src/app/api/upload/route.ts:23 | sanitising a concatenation concatenates the sanitised parts, so order is kept |
| FileNames.SanitizeFixesExactlyAllowed | src/app/api/upload/route.ts:23 | a name is left unchanged exactly when all its characters are allowed |
| FileNames.SanitizeIdempotent | src/app/api/upload/route.ts:23 | sanitising twice is sanitising once |
| FileNames.SanitizeKeepsAllowedCharacters | src/app/api/upload/route.ts:23 | each allowed character occurs as often in the output as in the input; no other character occurs |
| FileNames.SafeName | src/app/api/upload/route.ts:22-23 | the stored name is the upload id, a dash, then exactly the sanitised original name |
| FileNames.SafeNameOfSanitised | src/app/api/upload/route.ts:23 | uploading a name that is already sanitised stores the same file as uploading the raw name |
| Extraction.MatchAt | src/app/api/process/route.ts:49-52 | a match ends after it starts and inside the reply; the marker matches exactly where "Tâches" occurs in any case, and its match then runs greedily over white space holding at most one ':' or '-'; the task separator matches exactly at a new line (one character) or at '-' or '•' followed by white space, and then takes the whole run of that white space |
| Extraction.SplitScan | src/app/api/process/route.ts:49-52 | the scan of `split` yields at least one piece, the first starting where the scan began, every piece inside the string |
| Extraction.PrependPiece | src/app/api/process/route.ts:49-52 | a match-free stretch ending at a match, followed by a split of the rest from where that match ends, is a split from the stretch's start |
| Extraction.ScanSplits | src/app/api/process/route.ts:49-52 | the scan cuts the string into pieces that start at 0 and end at its end, contain no match start, and are separated by exactly one match each |
| Extraction.ScanWithoutMatch | src/app/api/process/route.ts:49-52 | where nothing matches, the current piece runs to the end of the string |
| Extraction.ScanToFirstMatch | src/app/api/process/route.ts:49-52 | the current piece ends at the first match, and the scan resumes where that match ends |
| Extraction.Split | src/app/api/process/route.ts:49-52 | `split` always returns at least one piece |
| Extraction.SplitIsSplitsFrom | src/app/api/process/route.ts:49-52 | the pieces `Split` returns are exactly those of the declarative description of a regex split |
| Extraction.NoMatchNoSplit | src/app/api/process/route.ts:49-52 | a string in which the pattern never matches comes back whole |
| Extraction.FirstPieceEndsAtFirstMatch | src/app/api/process/route.ts:49 | the first piece is everything before the first match; the second begins where that match ends |
| Extraction.KeepTasks | src/app/api/process/route.ts:51-54 | every kept task is trimmed and longer than five UTF-16 units, and there are no more tasks than pieces |
| Extraction.KeepTasksMembers | src/app/api/process/route.ts:53-54 | a string is kept exactly when it is a trimmed piece longer than five units |
| Extraction.KeepTasksOne | src/app/api/process/route.ts:53-54 | one piece gives its trimmed form when that is longer than five units, and nothing otherwise |
| Extraction.KeepTasksAppend | src/app/api/process/route.ts:53-54 | the filter works piece by piece: the tasks of a concatenation are the tasks of each part in order, so order and repeats are kept |
| Extraction.Extract | src/app/api/process/route.ts:48-54 | the summary is never empty and is trimmed; every task is trimmed and longer than five units |
| Extraction.NoMarkerNoTasks | src/app/api/process/route.ts:49-54 | a reply without "Tâches" gives no tasks, and its trimmed whole, or 'Résumé indisponible' if that is empty, as summary |
| Extraction.SummaryPrecedesFirstMarker | src/app/api/process/route.ts:49-50 | the summary is the trimmed text before the first "Tâches", or 'Résumé indisponible' if that is empty |
| Extraction.TasksFollowFirstMarker | src/app/api/process/route.ts:49-54 | with the marker in the reply, the tasks are the kept pieces of the text between the end of the first marker and the next marker or the end, split on new lines and bullets |
| Process.Debit | src/app/api/process/route.ts:65-68 | the debit takes exactly one credit and changes no other column |
| Process.StoreThenDebit | src/app/api/process/route.ts:56-74 | the summary is always appended; an unknown user id answers 500 with credits untouched; a known one answers 200 with what was stored, and only that row loses one credit |
| Process.Process | src/app/api/process/route.ts:11-75 | missing parameter: 400, no change; answers are only 400, 500 or 200; at most one summary is appended and at most one credit taken, from no column but credits; no debit without a stored summary; on 200 the caller has exactly one new summary equal to what is returned, and their row alone lost one credit |
| Process.ProcessSucceeds | src/app/api/process/route.ts:48-70 | when every step succeeds the answer is 200 with the extraction of the reply, and exactly that summary is appended |
| Process.FailureBeforePersistChangesNothing | src/app/api/process/route.ts:19-63 | a missing file, a failed transcription, a failed chat or a failed insert gives 500 and leaves summaries and credits as they were |
| Process.FailedDebitKeepsSummary | src/app/api/process/route.ts:56-74 | a debit that throws for want of the user row answers 500 with the summary stored and no credit taken |
| Process.DebitCanGoNegative | src/app/api/process/route.ts:56-70 | when every step succeeds for a user at zero or below, unlimited or not, the answer is 200 and the balance goes below zero |
| Upload.Relay | src/app/api/upload/route.ts:39-45 | a non-ok processing answer becomes 500 carrying that body as detail; an ok one is passed through as 200 |
| Upload.Upload | src/app/api/upload/route.ts:8-46 | no token: 401, nothing written; a non-file field: 400, nothing written; otherwise exactly the id-prefixed sanitised name is added to the temporary directory |
| Upload.AsWrittenProcessingMissesTheUpload | src/app/api/upload/route.ts:22-35 | as written, every upload that gets past the checks fails with 500 and changes no summary or credit, since processing looks for a name that was not written |
| Upload.AsWrittenCounterexample | src/app/api/upload/route.ts:22-35 | the file "a" uploaded under id "u1" is stored as "u1-a" and the request fails with 500 |
| Upload.UploadFixed | src/app/api/upload/route.ts:8-46 | the corrected route: same checks and same written name as the original |
| Upload.FixedProcessingReadsTheUpload | src/app/api/upload/route.ts:32-35 | with the fix, a file whose name keeps an allowed character is processed: 200 with the extraction of the reply, one summary for the caller, one credit taken |
| Flows.PackPurchaseRoundTrip | src/app/api/stripe/checkout/route.ts:43-46 | the pack checkout's metadata, delivered back by the webhook, credits the buyer alone with exactly the pack size |
| Flows.SubscriptionCheckoutCreditsNothing | src/app/api/stripe/subscribe/route.ts:59-62 | the checkout-completed event of a subscription checkout is acknowledged and changes nothing |
| Flows.SubscribeThenActivate | src/app/api/stripe/subscribe/route.ts:39-42 | the customer id stored by subscribe is the one the webhook's activation finds: that row gets the plan's tier and keeps its credits |
| Flows.UnsubscribeAgreesWithDeletionEvent | src/app/api/stripe/unsubscribe/route.ts:47-53 | the deletion event that follows a successful unsubscribe leaves the caller's row as the route left it |

## Left out

- Stripe, Prisma, OpenAI and the file system are not part of this model. Stripe and OpenAI calls, and the summary insert, are inputs that return a value or throw.
- A database failure during a user-table read or write (`findFirst`/`findUnique` at webhook/route.ts:62 and 84, subscribe/route.ts:21, unsubscribe/route.ts:24; `updateMany` at webhook/route.ts:109) is not modelled: those calls are computed on the table and never throw, except `update` of a missing row. In the source such a failure answers 500, and Stripe redelivers a webhook event.
- Process.TempPath: the path read is the plain string `fileId + "-" + filename`. `path.join` (process/route.ts:19) also normalises `/` and `..` in the caller's `fileId` and `filename`; that normalisation is not modelled. A sanitised name has no `/`, so behind its `id-` prefix the stored name is a single path segment that is never `.` or `..`, and `path.join` leaves it unchanged. The finding is therefore not affected.
- The audio bytes, the prompts and the OpenAI request parameters are not modelled.
- Webhook signature verification is a boolean input. The event payload's shape is taken as given: a subscription with no item (`items.data[0]`) is not modelled.
- The price tables are plain maps. A JavaScript `Record` lookup with a key such as `constructor` reaches `Object.prototype`; those keys are not modelled.
- A request body that is not JSON makes `req.json()` throw. This is not modelled. Body fields are absent or strings. In the checkout route, `Number(body.quantity)` is an integer or "not a whole number".
- Checkout.Checkout: a session user without an `id` is modelled as the falsy id "". The webhook treats that like a missing user id.
- Subscribe.Subscribe: the session user's id is always a string. A session without one, which would make `findUnique` throw, is not modelled.
- The network between upload and processing is not modelled: a `fetch` that throws, and the `NEXT_PUBLIC_URL` configuration. A failed `writeFile` is not modelled either. Processing is called directly as a function.
- Process.Process: a failed summary insert is one input. Whether the database's foreign key would refuse an unknown user id is not modelled, because the schema is not part of this model.
- The unsubscribe module's start-up check for `STRIPE_SECRET_KEY` (unsubscribe/route.ts:9-11) is configuration, and is not modelled.
- `credits` is an unbounded `int`. The database column's width, and the error the database would raise on overflow, are not modelled; the schema is not part of this model.
- Concurrency: each handler is one atomic transition. Prisma increments and decrements that interleave across requests are not modelled.
- Log lines, the invoices listing, the Google Docs export, `/api/me`, the authentication setup, the pages and the React contexts are all out of scope. So is the `summarize` route, although it is the one the upload form calls (src/components/UploadForm.tsx:31): it duplicates the sanitiser and forwards `safename` instead of `filename`. The upload route modelled here, and its finding, are therefore not on the client's current path; nothing shown calls `/api/upload`.
- Strings are sequences of Unicode scalar values. UTF-16 matters only for `length`, which `Utf16Length` counts explicitly. Neither regex of the processing route can match half of a surrogate pair. The sanitiser's regex (upload/route.ts:23) is not in unicode mode, so it matches each half of a pair on its own; both halves are outside the allowed class and both are removed, which is why `Sanitize` dropping the whole character agrees with the source.

## Findings

| source | as written | input that shows it | evidently intended | confidence | as-written member | corrected member |
|---|---|---|---|---|---|---|
| src/app/api/upload/route.ts:33-35 | upload stores the file as `id-name` and forwards `filename: safeName`, which already carries the id; processing (process/route.ts:19) reads `${fileId}-${filename}`, i.e. `id-id-name`, which was never written, so every upload fails with 500 | file "a", id "u1": written "u1-a", read "u1-u1-a" | forward the sanitised name, so processing reads the file the upload wrote | high (not executed) | Upload.AsWrittenProcessingMissesTheUpload | Upload.FixedProcessingReadsTheUpload |

=== FILE: accounts.dfy ===
/** The user table the billing routes read and write. */
module Accounts {
  import opened Wrappers

  type UserId = string
  type CustomerId = string

  /** The `subscription` column: 'none', 'standard' or 'pro'. */
  datatype Tier = NoTier | Standard | Pro

  /** One row of the user table, reduced to the columns the routes touch. */
  datatype User = User(
    id: UserId,
    credits: int,        // no check constraint: the processing route can drive it below zero
    subscription: Tier,
    isUnlimited: bool,
    stripeCustomerId: Option<CustomerId>)

  /** The table in row order; Prisma's `findFirst` without `orderBy` is modelled as the first row that matches. */
  type Users = seq<User>

  /** The signed-in user as next-auth reports it. */
  datatype SessionUser = SessionUser(id: UserId, email: string)

  /** The unlimited flag is only ever set on a pro subscriber. */
  predicate Entitled(u: User) {
    u.isUnlimited ==> u.subscription == Pro
  }

  predicate AllEntitled(users: Users) {
    forall i :: 0 <= i < |users| ==> Entitled(users[i])
  }

  /** `v` differs from `u` at most in its credit balance. */
  predicate SameExceptCredits(u: User, v: User) {
    v.id == u.id && v.subscription == u.subscription && v.isUnlimited == u.isUnlimited
    && v.stripeCustomerId == u.stripeCustomerId
  }

  /** `v` differs from `u` at most in its subscription tier and unlimited flag. */
  predicate SameExceptPlan(u: User, v: User) {
    v.id == u.id && v.credits == u.credits && v.stripeCustomerId == u.stripeCustomerId
  }

  /** `v` differs from `u` at most in its Stripe customer reference. */
  predicate SameExceptCustomer(u: User, v: User) {
    v.id == u.id && v.credits == u.credits && v.subscription == u.subscription
    && v.isUnlimited == u.isUnlimited
  }

  /** Every row except row `i` is the same in `users'` as in `users`. */
  predicate OthersUnchanged(users: Users, users': Users, i: nat) {
    |users'| == |users| && forall j :: 0 <= j < |users| && j != i ==> users'[j] == users[j]
  }

  /** The `where` filters the routes use. */
  datatype Where = IdIs(id: UserId) | CustomerIs(customer: CustomerId)

  predicate Matches(u: User, w: Where) {
    match w
    case IdIs(id) => u.id == id
    case CustomerIs(c) => u.stripeCustomerId == Some(c)
  }

  /** The first row at or after `from` that matches `w`. */
  function FindFrom(users: Users, w: Where, from: nat): (r: Option<nat>)
    requires from <= |users|
    ensures r.Some? ==> from <= r.value < |users| && Matches(users[r.value], w)
    ensures r.Some? ==> forall j :: from <= j < r.value ==> !Matches(users[j], w)
    ensures r.None? ==> forall j :: from <= j < |users| ==> !Matches(users[j], w)
    decreases |users| - from
  {
    if from == |users| then None
    else if Matches(users[from], w) then Some(from)
    else FindFrom(users, w, from + 1)
  }

  /** Prisma's `findFirst` / `findUnique`: the index of the first matching row, or None when no row matches. */
  function FindFirst(users: Users, w: Where): (r: Option<nat>)
    ensures r.Some? ==> r.value < |users| && Matches(users[r.value], w)
    ensures r.Some? ==> forall j :: 0 <= j < r.value ==> !Matches(users[j], w)
    ensures r.None? <==> forall j :: 0 <= j < |users| ==> !Matches(users[j], w)
  {
    FindFrom(users, w, 0)
  }

  /** The columns a cancelled subscription resets. */
  function Revoke(u: User): (v: User)
    ensures v.subscription == NoTier && !v.isUnlimited
    ensures SameExceptPlan(u, v)
  {
    u.(subscription := NoTier, isUnlimited := false)
  }

  /** Prisma's `updateMany` that revokes every row holding customer `c`. */
  function RevokeCustomer(users: Users, c: CustomerId): (r: Users)
    ensures |r| == |users|
    ensures forall i :: 0 <= i < |users| && Matches(users[i], CustomerIs(c)) ==> r[i] == Revoke(users[i])
    ensures forall i :: 0 <= i < |users| && !Matches(users[i], CustomerIs(c)) ==> r[i] == users[i]
  {
    if users == [] then []
    else
      (if Matches(users[0], CustomerIs(c)) then [Revoke(users[0])] else [users[0]])
      + RevokeCustomer(users[1..], c)
  }

  /** Revoking is idempotent. */
  lemma RevokeIdempotent(u: User)
    ensures Revoke(Revoke(u)) == Revoke(u)
  {
  }

  /** Revoking every row of a customer twice is the same as doing it once. */
  lemma RevokeCustomerIdempotent(users: Users, c: CustomerId)
    ensures RevokeCustomer(RevokeCustomer(users, c), c) == RevokeCustomer(users, c)
  {
  }
}

=== FILE: checkout.dfy ===
/** The one-time pack checkout route: pack size to price, then a Stripe payment session. */
module Checkout {
  import opened Wrappers
  import opened Http
  import opened Accounts
  import opened Prices
  import opened StripeRequests

  /** `Number(body.quantity)`: an integer, or something else (NaN, a fraction) that names no pack. */
  datatype Quantity = Whole(n: int) | NotWhole

  /** The route reads and writes no user row, so its outcome carries no table. */
  datatype Outcome = Outcome(response: Response, request: Option<CheckoutRequest>)

  /** `PRICE_IDS[quantity]`. */
  function PackPrice(q: Quantity): (r: Option<string>)
    ensures r.Some? <==> q == Whole(10) || q == Whole(50)
    ensures r.Some? ==> r.value in PackCredits && PackCredits[r.value] == q.n
  {
    if q.Whole? && q.n in PackPrices then Some(PackPrices[q.n]) else None
  }

  function Checkout(session: Option<SessionUser>, quantity: Quantity, stripeSession: Call<string>): (o: Outcome)
    ensures session.None? ==> o == Outcome(Response(401, Error("Non autorisé")), None)
    ensures session.Some? && PackPrice(quantity).None? ==> o == Outcome(Response(400, Error("Pack invalide")), None)
    // a valid session and pack always reach Stripe with exactly one session request
    ensures session.Some? && PackPrice(quantity).Some? ==> o.request.Some?
    ensures o.request.Some? ==>
      && session.Some? && PackPrice(quantity).Some?
      && o.request.value.mode == Payment
      && o.request.value.price == PackPrice(quantity).value
      && o.request.value.metadataPriceId == o.request.value.price
      && o.request.value.metadataUserId == session.value.id
    ensures o.response.status == 200 <==> session.Some? && PackPrice(quantity).Some? && stripeSession.Returns?
    ensures stripeSession.Throws? && o.request.Some? ==> o.response == Response(500, Error("Erreur Stripe"))
    ensures stripeSession.Returns? && o.request.Some? ==> o.response == Response(200, RedirectUrl(stripeSession.value))
  {
    if session.None? then Outcome(Response(401, Error("Non autorisé")), None)
    else
      match PackPrice(quantity)
      case None => Outcome(Response(400, Error("Pack invalide")), None)
      case Some(price) =>
        var request := CheckoutRequest(Payment, None, price, session.value.id, price);
        match stripeSession
        case Throws => Outcome(Response(500, Error("Erreur Stripe")), Some(request))
        case Returns(url) => Outcome(Response(200, RedirectUrl(url)), Some(request))
  }
}

=== FILE: extraction.dfy ===
/**
 * How the processing route cuts the chat model's reply into a summary and a task list:
 *   reply.split(/Tâches\s*[:\-]?\s*\n?/i)          -> [rawSummary, rawTasks = '']
 *   rawTasks.split(/\n|[-•]\s+/).map(trim).filter(t => t.length > 5)
 */
module Extraction {
  import opened Wrappers
  import opened Text

  /** The marker word, and the only other character each position matches under `/i` (non-Unicode mode). */
  const MarkerLower: string := "tâches"
  const MarkerUpper: string := "TÂCHES"

  /** What the route stores when nothing is left before the marker. */
  const NoSummary: string := "Résumé indisponible"

  /** The marker word starts at `q`, in any mix of cases. */
  predicate MarkerAt(s: string, q: nat) {
    q + |MarkerLower| <= |s|
    && forall k :: 0 <= k < |MarkerLower| ==> s[q + k] == MarkerLower[k] || s[q + k] == MarkerUpper[k]
  }

  /** The two regular expressions the route splits on. */
  datatype Pattern = Marker | TaskSeparator

  /**
   * Where the match of `p` that starts at `q` ends, if one starts there. Both patterns end in optional or
   * greedy parts only, so the first (greedy) attempt is the match. In the marker pattern the trailing `\n?`
   * always matches the empty string: the `\s*` before it has already consumed every newline.
   */
  function MatchAt(p: Pattern, s: string, q: nat): (r: Option<nat>)
    ensures r.Some? ==> q < r.value <= |s|
    ensures p == Marker ==> (r.Some? <==> MarkerAt(s, q))
    // the marker's tail `\s*[:\-]?\s*\n?`: white space with at most one ':' or '-', taken greedily
    ensures p == Marker && r.Some? ==>
      var w := q + |MarkerLower|;
      && w <= r.value
      && (forall k :: w <= k < r.value ==> IsSpace(s[k]) || s[k] == ':' || s[k] == '-')
      && (forall k, k' :: w <= k < k' < r.value ==> IsSpace(s[k]) || IsSpace(s[k']))
      && (r.value == |s| || !IsSpace(s[r.value]))
      && ((forall k :: w <= k < r.value ==> IsSpace(s[k])) ==>
            r.value == |s| || (s[r.value] != ':' && s[r.value] != '-'))
    // the task separator `\n|[-•]\s+`: a new line alone, or a bullet and the whole run of white space after it
    ensures p == TaskSeparator ==>
      (r.Some? <==> q < |s| && (s[q] == '\n' || ((s[q] == '-' || s[q] == '•') && q + 1 < |s| && IsSpace(s[q + 1]))))
    ensures p == TaskSeparator && r.Some? && s[q] == '\n' ==> r.value == q + 1
    ensures p == TaskSeparator && r.Some? && s[q] != '\n' ==>
      (forall k :: q < k < r.value ==> IsSpace(s[k])) && (r.value == |s| || !IsSpace(s[r.value]))
  {
    if q >= |s| then None
    else
      match p
      case Marker =>
        if MarkerAt(s, q) then
          var afterWord := SkipSpaces(s, q + |MarkerLower|);
          var afterPunct :=
            if afterWord < |s| && (s[afterWord] == ':' || s[afterWord] == '-') then afterWord + 1 else afterWord;
          Some(SkipSpaces(s, afterPunct))
        else None
      case TaskSeparator =>
        if s[q] == '\n' then Some(q + 1)
        else if (s[q] == '-' || s[q] == '•') && q + 1 < |s| && IsSpace(s[q + 1]) then Some(SkipSpaces(s, q + 1))
        else None
  }

  /**
   * The matches of a pattern in a string, position by position: entry q is where the match starting at q ends,
   * if one starts there. The scan below works on this table rather than on the string.
   */
  type MatchTable = seq<Option<nat>>

  /** Every match ends after it starts and inside the string. */
  predicate WellFormed(t: MatchTable) {
    forall q :: 0 <= q < |t| && t[q].Some? ==> q < t[q].value <= |t|
  }

  function Matches(p: Pattern, s: string): (t: MatchTable)
    ensures |t| == |s| && WellFormed(t)
    ensures forall q :: 0 <= q < |s| ==> t[q] == MatchAt(p, s, q)
  {
    seq(|s|, q requires 0 <= q < |s| => MatchAt(p, s, q))
  }

  /** A piece of the split, as the half-open index range [lo, hi) of the input. */
  datatype Span = Span(lo: nat, hi: nat)

  /**
   * `spans` is what `split` gives from `start` on: the pieces run from `start` to the end of the string in
   * order, no match begins inside a piece, and each piece ends exactly where a match begins that ends where the
   * next piece begins.
   */
  ghost predicate SplitsFrom(t: MatchTable, start: nat, spans: seq<Span>) {
    && |spans| >= 1
    && spans[0].lo == start
    && spans[|spans| - 1].hi == |t|
    && (forall k :: 0 <= k < |spans| ==> spans[k].lo <= spans[k].hi <= |t|)
    && (forall k, q :: 0 <= k < |spans| && spans[k].lo <= q < spans[k].hi ==> t[q].None?)
    && (forall k :: 0 <= k < |spans| - 1 ==> spans[k].hi < |t| && t[spans[k].hi] == Some(spans[k + 1].lo))
  }

  /**
   * The scan of `String.prototype.split` with a regular expression: `lo` is where the current piece started,
   * `q` the next position to try a match at.
   */
  function SplitScan(t: MatchTable, lo: nat, q: nat): (spans: seq<Span>)
    requires WellFormed(t)
    requires lo <= q <= |t|
    ensures |spans| >= 1 && spans[0].lo == lo
    ensures forall k :: 0 <= k < |spans| ==> spans[k].lo <= spans[k].hi <= |t|
    decreases |t| - q, |t| - lo
  {
    if q == |t| then [Span(lo, q)]
    else
      match t[q]
      case None => SplitScan(t, lo, q + 1)
      case Some(e) => [Span(lo, q)] + SplitScan(t, e, e)
  }

  /** A piece ending at a match, put in front of a split of the rest, is a split from the piece's start. */
  lemma PrependPiece(t: MatchTable, lo: nat, q: nat, rest: seq<Span>)
    requires lo <= q < |t|
    requires forall j :: lo <= j < q ==> t[j].None?
    requires t[q].Some? && SplitsFrom(t, t[q].value, rest)
    ensures SplitsFrom(t, lo, [Span(lo, q)] + rest)
  {
  }

  /** The scan computes exactly the split described by `SplitsFrom`. */
  lemma {:induction false} ScanSplits(t: MatchTable, lo: nat, q: nat)
    requires WellFormed(t)
    requires lo <= q <= |t|
    requires forall j :: lo <= j < q ==> t[j].None?
    ensures SplitsFrom(t, lo, SplitScan(t, lo, q))
    decreases |t| - q, |t| - lo
  {
    if q < |t| {
      match t[q]
      case None =>
        ScanSplits(t, lo, q + 1);
      case Some(e) =>
        ScanSplits(t, e, e);
        PrependPiece(t, lo, q, SplitScan(t, e, e));
    }
  }

  /** Scanning on from `q` over positions where nothing matches ends the current piece at the end. */
  lemma {:induction false} ScanWithoutMatch(t: MatchTable, lo: nat, q: nat)
    requires WellFormed(t)
    requires lo <= q <= |t|
    requires forall j :: lo <= j < |t| ==> t[j].None?
    ensures SplitScan(t, lo, q) == [Span(lo, |t|)]
    decreases |t| - q
  {
    if q < |t| {
      ScanWithoutMatch(t, lo, q + 1);
    }
  }

  /** Scanning on from `q` up to the first match at `m` ends the current piece at `m`. */
  lemma {:induction false} ScanToFirstMatch(t: MatchTable, lo: nat, q: nat, m: nat)
    requires WellFormed(t)
    requires lo <= q <= m < |t|
    requires t[m].Some?
    requires forall j :: lo <= j < m ==> t[j].None?
    ensures SplitScan(t, lo, q) == [Span(lo, m)] + SplitScan(t, t[m].value, t[m].value)
    decreases m - q
  {
    if q < m {
      ScanToFirstMatch(t, lo, q + 1, m);
    }
  }

  /** The pieces of `s` the spans cut out. */
  function Pieces(s: string, spans: seq<Span>): (pieces: seq<string>)
    requires forall k :: 0 <= k < |spans| ==> spans[k].lo <= spans[k].hi <= |s|
    ensures |pieces| == |spans|
    ensures forall k :: 0 <= k < |spans| ==> pieces[k] == s[spans[k].lo..spans[k].hi]
  {
    seq(|spans|, k requires 0 <= k < |spans| => s[spans[k].lo..spans[k].hi])
  }

  /**
   * `s.split(p)`. On the empty string the library answers `[""]` when the pattern cannot match there, which is
   * what the scan gives: neither pattern matches an empty string.
   */
  function Split(p: Pattern, s: string): (pieces: seq<string>)
    ensures |pieces| >= 1
  {
    Pieces(s, SplitScan(Matches(p, s), 0, 0))
  }

  /** `Split` cuts `s` along spans that satisfy the declarative description of the split. */
  lemma SplitIsSplitsFrom(p: Pattern, s: string)
    ensures var spans := SplitScan(Matches(p, s), 0, 0);
      && SplitsFrom(Matches(p, s), 0, spans)
      && Split(p, s) == Pieces(s, spans)
  {
    ScanSplits(Matches(p, s), 0, 0);
  }

  /** A string in which the pattern matches nowhere is not split. */
  lemma NoMatchNoSplit(p: Pattern, s: string)
    requires forall q :: 0 <= q < |s| ==> MatchAt(p, s, q).None?
    ensures Split(p, s) == [s]
  {
    ScanWithoutMatch(Matches(p, s), 0, 0);
    assert s[0..|s|] == s;
  }

  /** The first piece is everything before the first match; the second starts where that match ends. */
  lemma FirstPieceEndsAtFirstMatch(p: Pattern, s: string, q: nat)
    requires MatchAt(p, s, q).Some?
    requires forall j :: 0 <= j < q ==> MatchAt(p, s, j).None?
    ensures |Split(p, s)| >= 2 && Split(p, s)[0] == s[..q]
    ensures var t := Matches(p, s);
      var e := MatchAt(p, s, q).value;
      Split(p, s)[1] == s[e..SplitScan(t, e, e)[0].hi]
  {
    ScanToFirstMatch(Matches(p, s), 0, 0, q);
  }

  /** Every piece, trimmed. */
  function TrimAll(pieces: seq<string>): (r: seq<string>)
    ensures |r| == |pieces|
    ensures forall k :: 0 <= k < |pieces| ==> r[k] == Trim(pieces[k])
  {
    seq(|pieces|, k requires 0 <= k < |pieces| => Trim(pieces[k]))
  }

  /** A task survives the filter when it is longer than five UTF-16 units. */
  predicate LongEnough(t: string) {
    Utf16Length(t) > 5
  }

  /** What the route keeps of the task pieces: each trimmed, and only those longer than five UTF-16 units. */
  function KeepTasks(pieces: seq<string>): (tasks: seq<string>)
    ensures forall i :: 0 <= i < |tasks| ==> IsTrimmed(tasks[i]) && LongEnough(tasks[i])
    ensures |tasks| <= |pieces|
  {
    if pieces == [] then []
    else
      var t := Trim(pieces[0]);
      (if LongEnough(t) then [t] else []) + KeepTasks(pieces[1..])
  }

  /** A string is a task exactly when it is a trimmed piece long enough to pass the filter. */
  lemma {:induction false} KeepTasksMembers(pieces: seq<string>)
    ensures forall x :: x in KeepTasks(pieces) <==> x in TrimAll(pieces) && LongEnough(x)
  {
    if pieces != [] {
      KeepTasksMembers(pieces[1..]);
      assert TrimAll(pieces) == [Trim(pieces[0])] + TrimAll(pieces[1..]);
    }
  }

  /** A single piece is kept, trimmed, exactly when its trimmed form is long enough. */
  lemma KeepTasksOne(piece: string)
    ensures KeepTasks([piece]) == if LongEnough(Trim(piece)) then [Trim(piece)] else []
  {
    assert [piece][1..] == [];
  }

  /** The filter works piece by piece: it keeps the pieces' order and every repeated task. */
  lemma {:induction false} KeepTasksAppend(a: seq<string>, b: seq<string>)
    ensures KeepTasks(a + b) == KeepTasks(a) + KeepTasks(b)
    decreases |a|
  {
    if a == [] {
      assert a + b == b;
    } else {
      assert (a + b)[0] == a[0];
      assert (a + b)[1..] == a[1..] + b;
      KeepTasksAppend(a[1..], b);
    }
  }

  datatype Extracted = Extracted(summary: string, tasks: seq<string>)

  /** The summary and tasks the route stores and returns for the chat model's reply. */
  function Extract(reply: string): (r: Extracted)
    ensures r.summary != [] && IsTrimmed(r.summary)
    ensures forall i :: 0 <= i < |r.tasks| ==> Trim(r.tasks[i]) == r.tasks[i] && LongEnough(r.tasks[i])
  {
    var parts := Split(Marker, reply);
    var rawTasks := if |parts| > 1 then parts[1] else "";
    var summary := Trim(parts[0]);
    var tasks := KeepTasks(Split(TaskSeparator, rawTasks));
    assert forall i :: 0 <= i < |tasks| ==> Trim(tasks[i]) == tasks[i] by {
      forall i | 0 <= i < |tasks| ensures Trim(tasks[i]) == tasks[i] {
        TrimFixesTrimmed(tasks[i]);
      }
    }
    Extracted(if summary == [] then NoSummary else summary, tasks)
  }

  /** A reply without the marker has no tasks, and its summary is the whole reply, trimmed. */
  lemma NoMarkerNoTasks(reply: string)
    requires forall q :: 0 <= q < |reply| ==> !MarkerAt(reply, q)
    ensures Extract(reply).tasks == []
    ensures Extract(reply).summary == if Trim(reply) == [] then NoSummary else Trim(reply)
  {
    assert forall q :: 0 <= q < |reply| ==> MatchAt(Marker, reply, q).None?;
    NoMatchNoSplit(Marker, reply);
    NoMatchNoSplit(TaskSeparator, "");
    assert Trim("") == "" && !LongEnough("");
    assert KeepTasks([""]) == [];
  }

  /** With a marker, the summary is what precedes its first occurrence, trimmed. */
  lemma SummaryPrecedesFirstMarker(reply: string, q: nat)
    requires MarkerAt(reply, q)
    requires forall j :: 0 <= j < q ==> !MarkerAt(reply, j)
    ensures Extract(reply).summary == if Trim(reply[..q]) == [] then NoSummary else Trim(reply[..q])
  {
    FirstPieceEndsAtFirstMatch(Marker, reply, q);
  }

  /**
   * A reply with the marker: the tasks are the kept pieces of the text between the end of the first marker
   * and the next one (or the end of the reply), split on new lines and bullets.
   */
  lemma TasksFollowFirstMarker(reply: string, q: nat)
    requires MarkerAt(reply, q)
    requires forall j :: 0 <= j < q ==> !MarkerAt(reply, j)
    ensures var e := MatchAt(Marker, reply, q).value;
      Extract(reply).tasks == KeepTasks(Split(TaskSeparator, reply[e..SplitScan(Matches(Marker, reply), e, e)[0].hi]))
  {
    FirstPieceEndsAtFirstMatch(Marker, reply, q);
  }
}

=== FILE: file_names.dfy ===
/** The upload route's file-name sanitiser: `name.replace(/[^a-zA-Z0-9.\-_]/g, '')`. */
module FileNames {

  /** The characters the sanitiser keeps. */
  predicate Allowed(c: char) {
    ('a' <= c <= 'z') || ('A' <= c <= 'Z') || ('0' <= c <= '9') || c == '.' || c == '-' || c == '_'
  }

  /** Every character of `s` is kept by the sanitiser. */
  predicate AllAllowed(s: string) {
    forall i :: 0 <= i < |s| ==> Allowed(s[i])
  }

  /** Drops every character that is not allowed. */
  function Sanitize(name: string): (r: string)
    ensures AllAllowed(r)
    ensures |r| <= |name|
  {
    if name == [] then []
    else (if Allowed(name[0]) then [name[0]] else []) + Sanitize(name[1..])
  }

  /** Sanitising a concatenation sanitises each part: the output keeps the input's order. */
  lemma {:induction false} SanitizeAppend(a: string, b: string)
    ensures Sanitize(a + b) == Sanitize(a) + Sanitize(b)
    decreases |a|
  {
    if a == [] {
      assert a + b == b;
    } else {
      var kept := if Allowed(a[0]) then [a[0]] else [];
      assert (a + b)[0] == a[0];
      assert (a + b)[1..] == a[1..] + b;
      assert Sanitize(a + b) == kept + Sanitize(a[1..] + b);
      SanitizeAppend(a[1..], b);
      assert Sanitize(a) == kept + Sanitize(a[1..]);
    }
  }

  /** The sanitiser leaves a name alone exactly when every character of it is allowed. */
  lemma {:induction false} SanitizeFixesExactlyAllowed(s: string)
    ensures Sanitize(s) == s <==> AllAllowed(s)
  {
    if s != [] {
      SanitizeFixesExactlyAllowed(s[1..]);
      if !Allowed(s[0]) {
        assert |Sanitize(s)| <= |s[1..]| < |s|;
      }
      if Allowed(s[0]) && Sanitize(s) == s {
        assert Sanitize(s[1..]) == s[1..];
      }
    }
  }

  /** Sanitising twice is sanitising once. */
  lemma SanitizeIdempotent(s: string)
    ensures Sanitize(Sanitize(s)) == Sanitize(s)
  {
    SanitizeFixesExactlyAllowed(Sanitize(s));
  }

  /** Every allowed character occurs as often in the output as in the input, and no other character occurs. */
  lemma {:induction false} SanitizeKeepsAllowedCharacters(s: string)
    ensures forall c :: multiset(Sanitize(s))[c] == if Allowed(c) then multiset(s)[c] else 0
  {
    if s != [] {
      SanitizeKeepsAllowedCharacters(s[1..]);
      assert s == [s[0]] + s[1..];
      assert multiset(s) == multiset([s[0]]) + multiset(s[1..]);
    }
  }

  /** The stored name: the upload id, a dash, and the sanitised original name. */
  function SafeName(id: string, fileName: string): (r: string)
    ensures |r| > |id|
    ensures r[..|id|] == id && r[|id|] == '-'
    ensures r[|id| + 1..] == Sanitize(fileName)
    ensures AllAllowed(r[|id| + 1..])
  {
    var r := id + "-" + Sanitize(fileName);
    assert r[|id| + 1..] == Sanitize(fileName);
    r
  }

  /** Uploading an already sanitised name stores the same file: the stored name depends only on what is kept. */
  lemma SafeNameOfSanitised(id: string, fileName: string)
    ensures SafeName(id, Sanitize(fileName)) == SafeName(id, fileName)
  {
    SanitizeIdempotent(fileName);
  }
}

=== FILE: flows.dfy ===
/** How the routes compose: what one route sends to Stripe is what the webhook later reads back. */
module Flows {
  import opened Wrappers
  import opened Http
  import opened Accounts
  import opened Prices
  import opened StripeRequests
  import Webhook
  import Checkout
  import Subscribe
  import Unsubscribe

  /** Buying pack q: the session's metadata, delivered back by checkout.session.completed, credits exactly q. */
  lemma PackPurchaseRoundTrip(users: Users, session: SessionUser, q: int, url: string)
    requires q == 10 || q == 50
    requires session.id != ""
    requires FindFirst(users, IdIs(session.id)).Some?
    ensures var c := Checkout.Checkout(Some(session), Checkout.Whole(q), Returns(url));
      var i := FindFirst(users, IdIs(session.id)).value;
      && c.response == Response(200, RedirectUrl(url))
      && c.request.Some?
      && var e := Webhook.CheckoutCompleted(Some(c.request.value.metadataUserId), Some(c.request.value.metadataPriceId));
      && var o := Webhook.Handle(users, true, e);
      && o.response == Webhook.Acknowledged
      && o.users[i].credits == users[i].credits + q
      && OthersUnchanged(users, o.users, i)
  {
  }

  /**
   * A subscription checkout also ends in checkout.session.completed with the user id and price in its
   * metadata; the plan prices are not packs, so that event is acknowledged and changes nothing.
   */
  lemma SubscriptionCheckoutCreditsNothing(users: Users, session: SessionUser, planPrice: string,
                                           newCustomer: Call<CustomerId>, url: string)
    requires planPrice in SubscriptionPlans
    ensures var s := Subscribe.Subscribe(users, Some(session), planPrice, newCustomer, Returns(url));
      s.request.Some? ==>
        var e := Webhook.CheckoutCompleted(Some(s.request.value.metadataUserId), Some(s.request.value.metadataPriceId));
        Webhook.Handle(s.users, true, e) == Webhook.Outcome(Webhook.Acknowledged, s.users)
  {
  }

  /**
   * Subscribing a user without a customer stores a fresh customer id; when Stripe then reports the
   * subscription for that customer, the same row gets the plan's tier.
   */
  lemma SubscribeThenActivate(users: Users, session: SessionUser, planPrice: string, c: CustomerId, url: string)
    requires session.email != "" && planPrice in SubscriptionPlans
    requires FindFirst(users, IdIs(session.id)).Some?
    requires var u := users[FindFirst(users, IdIs(session.id)).value];
      u.subscription == NoTier && !Truthy(u.stripeCustomerId)
    requires forall j :: 0 <= j < |users| ==> users[j].stripeCustomerId != Some(c)
    ensures var i := FindFirst(users, IdIs(session.id)).value;
      var s := Subscribe.Subscribe(users, Some(session), planPrice, Returns(c), Returns(url));
      var o := Webhook.Handle(s.users, true, Webhook.SubscriptionCreated(c, planPrice));
      && s.response == Response(200, RedirectUrl(url))
      && o.users[i].subscription == SubscriptionPlans[planPrice].tier
      && (o.users[i].isUnlimited <==> planPrice == ProPrice)
      && o.users[i].credits == users[i].credits
  {
  }

  /**
   * The unsubscribe route revokes the tier itself; the customer.subscription.deleted event Stripe sends
   * afterwards finds the row already revoked and leaves it as it is.
   */
  lemma UnsubscribeAgreesWithDeletionEvent(users: Users, userId: UserId)
    requires userId != ""
    ensures var r := Unsubscribe.Unsubscribe(users, Some(userId), Returns(true), Returns(()));
      r.cancelled ==>
        var i := FindFirst(users, IdIs(userId)).value;
        var c := users[i].stripeCustomerId.value;
        Webhook.Handle(r.users, true, Webhook.SubscriptionDeleted(c)).users[i] == r.users[i]
  {
  }
}

=== FILE: http.dfy ===
/** The responses the route handlers send. */
module Http {

  /** The JSON (or text) bodies the routes answer with. */
  datatype Body =
    | Text(text: string)                              // a plain-text body
    | Received                                        // { received: true }
    | Error(message: string)                          // { error }
    | ErrorWithDetail(message: string, detail: Body)  // { error, detail }: detail is another response's body
    | RedirectUrl(url: string)                        // { url } of a Stripe checkout session
    | Unsubscribed                                    // { success: true }
    | Processed(summary: string, tasks: seq<string>)  // { status: 'ok', summary, tasks }
    | Unhandled                                       // the framework's answer to an exception the handler did not catch

  datatype Response = Response(status: int, body: Body) {

    /** `Response.ok` of the fetch API. */
    predicate IsOk() {
      200 <= status <= 299
    }
  }

  /** The 500 the framework sends when a handler throws. */
  const Crashed := Response(500, Unhandled)
}

=== FILE: prices.dfy ===
/** The static Stripe price tables shared by the checkout route and the webhook. */
module Prices {
  import opened Accounts

  const Pack10Price: string := "price_1R5enGK9mEToSu4Ymfww3tTb"
  const Pack50Price: string := "price_1R5enfK9mEToSu4YHHY743l7"
  const StandardPrice: string := "price_1R5ficK9mEToSu4YF0OdylSe"
  const ProPrice: string := "price_1R5fj5K9mEToSu4YjLTjE1g3"

  /** The webhook's PRICE_TO_CREDITS: credits granted by each one-time pack. */
  const PackCredits: map<string, int> := map[Pack10Price := 10, Pack50Price := 50]

  /** What a subscription grants each month. */
  datatype Allowance = Monthly(credits: int) | Unlimited

  datatype Plan = Plan(tier: Tier, allowance: Allowance)

  /** The webhook's SUBSCRIPTION_PRICE_IDS. */
  const SubscriptionPlans: map<string, Plan> :=
    map[StandardPrice := Plan(Standard, Monthly(100)), ProPrice := Plan(Pro, Unlimited)]

  /** The checkout route's PRICE_IDS: pack size to price. */
  const PackPrices: map<int, string> := map[10 := Pack10Price, 50 := Pack50Price]

  /** The two pack tables are inverse to each other: buying pack q grants q credits, and back. */
  lemma PackTablesRoundTrip()
    ensures PackPrices.Keys == {10, 50}
    ensures forall q :: q in PackPrices ==> PackPrices[q] in PackCredits && PackCredits[PackPrices[q]] == q
    ensures forall p :: p in PackCredits ==> PackCredits[p] in PackPrices && PackPrices[PackCredits[p]] == p
  {
  }

  /** No price is both a pack and a subscription, so a subscription checkout never grants pack credits. */
  lemma CatalogsDisjoint()
    ensures PackCredits.Keys !! SubscriptionPlans.Keys
  {
  }

  /** Every plan names a paid tier, and the plan is unlimited exactly when its tier is pro. */
  lemma PlansAreConsistent()
    ensures forall p :: p in SubscriptionPlans ==> SubscriptionPlans[p].tier != NoTier
    ensures forall p :: p in SubscriptionPlans ==>
      (SubscriptionPlans[p].tier == Pro <==> SubscriptionPlans[p].allowance == Unlimited)
    ensures forall p :: p in SubscriptionPlans && SubscriptionPlans[p].allowance.Monthly? ==>
      SubscriptionPlans[p].allowance.credits == 100
  {
  }
}

=== FILE: process.dfy ===
/**
 * The processing route: read the uploaded audio, transcribe it, ask the chat model for a summary and tasks,
 * store the summary, then take one credit from the user. Nothing checks the balance first, and the debit
 * applies to unlimited subscribers too.
 */
module Process {
  import opened Wrappers
  import opened Http
  import opened Accounts
  import opened Extraction

  /** A row of the summary table. */
  datatype Summary = Summary(userId: UserId, content: string, source: string, tasks: seq<string>)

  datatype Db = Db(users: Users, summaries: seq<Summary>)

  /** The JSON body: each field absent or a string. */
  datatype Request = Request(fileId: Option<string>, filename: Option<string>, userId: Option<string>)

  /**
   * What the services outside the model do for this request: the transcription call, the chat model's
   * answer for a given transcript (an absent message content is the empty reply), and the summary insert.
   */
  datatype Services = Services(transcribe: Call<string>, chat: string -> Call<string>, saveSummary: Call<()>)

  datatype Outcome = Outcome(response: Response, db: Db)

  const MissingParameters := Response(400, Error("Paramètres manquants."))
  /** The catch-all: every exception inside the handler is answered with this. */
  const ProcessingFailed := Response(500, Error("Erreur traitement."))

  /** The file the route reads in the temporary directory. */
  function TempPath(fileId: string, filename: string): string {
    fileId + "-" + filename
  }

  /** The request carries every parameter (a falsy one counts as missing). */
  predicate HasParameters(req: Request) {
    Truthy(req.fileId) && Truthy(req.filename) && Truthy(req.userId)
  }

  /** Take one credit, whatever the balance and the tier. */
  function Debit(u: User): (v: User)
    ensures SameExceptCredits(u, v) && v.credits == u.credits - 1
  {
    u.(credits := u.credits - 1)
  }

  /**
   * The steps before the database changes: read the file (absent when its name is not in the directory),
   * transcribe it, ask the chat model, and insert the summary. Any of them throwing gives None; otherwise
   * the extraction of the chat model's reply.
   */
  function Summarise(files: set<string>, fileId: string, filename: string, services: Services): (e: Option<Extracted>)
    ensures e.Some? <==>
      && TempPath(fileId, filename) in files
      && services.transcribe.Returns?
      && services.chat(services.transcribe.value).Returns?
      && services.saveSummary.Returns?
    ensures e.Some? ==> e.value == Extract(services.chat(services.transcribe.value).value)
  {
    if TempPath(fileId, filename) !in files then None  // readFile throws
    else
      match services.transcribe
      case Throws => None
      case Returns(transcript) =>
        match services.chat(transcript)
        case Throws => None
        case Returns(reply) =>
          match services.saveSummary
          case Throws => None
          case Returns(_) => Some(Extract(reply))
  }

  /**
   * What happens once the summary insert succeeded: the summary is stored, then the caller's row is debited;
   * a missing row makes the debit throw, leaving the summary stored.
   */
  function StoreThenDebit(db: Db, userId: UserId, filename: string, extracted: Extracted): (o: Outcome)
    ensures o.db.summaries == db.summaries + [Summary(userId, extracted.summary, filename, extracted.tasks)]
    ensures FindFirst(db.users, IdIs(userId)).None? ==> o.response == ProcessingFailed && o.db.users == db.users
    ensures FindFirst(db.users, IdIs(userId)).Some? ==>
      var i := FindFirst(db.users, IdIs(userId)).value;
      && o.response == Response(200, Processed(extracted.summary, extracted.tasks))
      && OthersUnchanged(db.users, o.db.users, i)
      && SameExceptCredits(db.users[i], o.db.users[i])
      && o.db.users[i].credits == db.users[i].credits - 1
    ensures |o.db.users| == |db.users|
    ensures forall j :: 0 <= j < |db.users| ==>
      SameExceptCredits(db.users[j], o.db.users[j])
      && (o.db.users[j].credits == db.users[j].credits || o.db.users[j].credits == db.users[j].credits - 1)
  {
    var saved := db.(summaries := db.summaries + [Summary(userId, extracted.summary, filename, extracted.tasks)]);
    match FindFirst(db.users, IdIs(userId))
    case None => Outcome(ProcessingFailed, saved)
    case Some(i) =>
      Outcome(Response(200, Processed(extracted.summary, extracted.tasks)),
              saved.(users := db.users[i := Debit(db.users[i])]))
  }

  /** The route, given the names present in the temporary directory. */
  function Process(db: Db, files: set<string>, req: Request, services: Services): (o: Outcome)
    ensures !HasParameters(req) ==> o == Outcome(MissingParameters, db)
    ensures o.response == MissingParameters || o.response == ProcessingFailed || o.response.status == 200
    // the user table changes at most by one debit of one row, and never in a column other than credits
    ensures |o.db.users| == |db.users|
    ensures forall j :: 0 <= j < |db.users| ==>
      SameExceptCredits(db.users[j], o.db.users[j])
      && (o.db.users[j].credits == db.users[j].credits || o.db.users[j].credits == db.users[j].credits - 1)
    // at most one summary is added, at the end
    ensures o.db.summaries == db.summaries
      || (|o.db.summaries| == |db.summaries| + 1 && o.db.summaries[..|db.summaries|] == db.summaries)
    // the summary is stored before the debit: no debit without a stored summary
    ensures o.db.users != db.users ==> |o.db.summaries| == |db.summaries| + 1
    // success: exactly one summary for the caller, what was returned is what was stored, one credit taken
    ensures o.response.status == 200 ==>
      && HasParameters(req)
      && |o.db.summaries| == |db.summaries| + 1
      && var s := o.db.summaries[|db.summaries|];
      && s.userId == req.userId.value && s.source == req.filename.value
      && o.response.body == Processed(s.content, s.tasks)
      && FindFirst(db.users, IdIs(req.userId.value)).Some?
      && var i := FindFirst(db.users, IdIs(req.userId.value)).value;
      && OthersUnchanged(db.users, o.db.users, i)
      && o.db.users[i].credits == db.users[i].credits - 1
  {
    if !HasParameters(req) then Outcome(MissingParameters, db)
    else
      match Summarise(files, req.fileId.value, req.filename.value, services)
      case None => Outcome(ProcessingFailed, db)
      case Some(extracted) =>
        var o := StoreThenDebit(db, req.userId.value, req.filename.value, extracted);
        assert o.db.summaries[..|db.summaries|] == db.summaries;
        o
  }

  /** When every step succeeds, the route answers 200 with the extraction of the reply and takes one credit. */
  lemma ProcessSucceeds(db: Db, files: set<string>, req: Request, transcript: string,
                        chat: string -> Call<string>, reply: string)
    requires HasParameters(req) && TempPath(req.fileId.value, req.filename.value) in files
    requires chat(transcript) == Returns(reply)
    requires FindFirst(db.users, IdIs(req.userId.value)).Some?
    ensures var o := Process(db, files, req, Services(Returns(transcript), chat, Returns(())));
      && o.response == Response(200, Processed(Extract(reply).summary, Extract(reply).tasks))
      && o.db.summaries == db.summaries
           + [Summary(req.userId.value, Extract(reply).summary, req.filename.value, Extract(reply).tasks)]
  {
  }

  /** A failure before the summary insert leaves the database as it was. */
  lemma FailureBeforePersistChangesNothing(db: Db, files: set<string>, req: Request, services: Services)
    requires HasParameters(req)
    requires TempPath(req.fileId.value, req.filename.value) !in files
      || services.transcribe.Throws?
      || services.chat(services.transcribe.value).Throws?
      || services.saveSummary.Throws?
    ensures Process(db, files, req, services) == Outcome(ProcessingFailed, db)
  {
  }

  /** A debit that fails for want of the user row leaves the stored summary in place, undebited. */
  lemma FailedDebitKeepsSummary(db: Db, files: set<string>, req: Request, transcript: string,
                                chat: string -> Call<string>, reply: string)
    requires HasParameters(req) && TempPath(req.fileId.value, req.filename.value) in files
    requires chat(transcript) == Returns(reply)
    requires FindFirst(db.users, IdIs(req.userId.value)).None?
    ensures var o := Process(db, files, req, Services(Returns(transcript), chat, Returns(())));
      && o.response == ProcessingFailed
      && o.db.users == db.users
      && |o.db.summaries| == |db.summaries| + 1
  {
  }

  /** Nothing guards the balance: a user with no credit left, even an unlimited one, goes below zero. */
  lemma DebitCanGoNegative(db: Db, files: set<string>, req: Request, transcript: string,
                           chat: string -> Call<string>, reply: string)
    requires HasParameters(req) && TempPath(req.fileId.value, req.filename.value) in files
    requires chat(transcript) == Returns(reply)
    requires FindFirst(db.users, IdIs(req.userId.value)).Some?
    requires db.users[FindFirst(db.users, IdIs(req.userId.value)).value].credits <= 0
    ensures var o := Process(db, files, req, Services(Returns(transcript), chat, Returns(())));
      var i := FindFirst(db.users, IdIs(req.userId.value)).value;
      && o.response.status == 200
      && o.db.users[i].credits < 0
      && o.db.users[i].isUnlimited == db.users[i].isUnlimited
  {
  }
}

=== FILE: stripe_requests.dfy ===
/** The parts of a Stripe checkout-session request the routes build that the rest of the system reads back. */
module StripeRequests {
  import opened Wrappers
  import opened Accounts

  datatype Mode = Payment | Subscription

  /** `stripe.checkout.sessions.create` parameters: mode, customer, the single line item's price, and the metadata. */
  datatype CheckoutRequest = CheckoutRequest(
    mode: Mode,
    customer: Option<CustomerId>,
    price: string,
    metadataUserId: UserId,
    metadataPriceId: string)
}

=== FILE: subscribe.dfy ===
/** The subscription checkout route: refuse a user who already has a tier, create the Stripe customer once. */
module Subscribe {
  import opened Wrappers
  import opened Http
  import opened Accounts
  import opened StripeRequests

  datatype Outcome = Outcome(
    response: Response,
    users: Users,
    customerCreated: bool,              // a Stripe customer was created, whether or not it was stored
    request: Option<CheckoutRequest>)

  const AlreadySubscribed := Response(400, Error("Vous avez déjà un abonnement actif."))

  /** The session request for `customer`, and the route's answer to what Stripe did with it. */
  function OpenCheckout(users: Users, userId: UserId, customer: CustomerId, priceId: string,
                        stripeSession: Call<string>, created: bool): (o: Outcome)
    ensures o.users == users && o.customerCreated == created
    ensures o.request == Some(CheckoutRequest(Subscription, Some(customer), priceId, userId, priceId))
    ensures o.response.status == 200 <==> stripeSession.Returns?
    ensures stripeSession.Returns? ==> o.response == Response(200, RedirectUrl(stripeSession.value))
    ensures stripeSession.Throws? ==> o.response == Crashed
  {
    var request := CheckoutRequest(Subscription, Some(customer), priceId, userId, priceId);
    match stripeSession
    case Throws => Outcome(Crashed, users, created, Some(request))
    case Returns(url) => Outcome(Response(200, RedirectUrl(url)), users, created, Some(request))
  }

  function Subscribe(users: Users, session: Option<SessionUser>, priceId: string,
                     newCustomer: Call<CustomerId>, stripeSession: Call<string>): (o: Outcome)
    // no session, user or email: 401 and nothing happens
    ensures session.None? || session.value.email == "" ==>
      o == Outcome(Response(401, Error("Non autorisé")), users, false, None)
    // the route only ever writes the caller's customer reference
    ensures |o.users| == |users|
    ensures forall j :: 0 <= j < |users| ==> SameExceptCustomer(users[j], o.users[j])
    // an existing customer reference is never overwritten
    ensures forall j :: 0 <= j < |users| && Truthy(users[j].stripeCustomerId) ==> o.users[j] == users[j]
    // a caller who already has a tier is refused, and no customer is created or stored
    ensures session.Some? && session.value.email != "" ==>
      var row := FindFirst(users, IdIs(session.value.id));
      row.Some? && users[row.value].subscription != NoTier ==>
        o == Outcome(AlreadySubscribed, users, false, None)
    // a checkout session is requested for the caller's own row and customer, with the price passed through unchecked
    ensures o.request.Some? ==>
      && session.Some?
      && var row := FindFirst(users, IdIs(session.value.id));
      && row.Some?
      && users[row.value].subscription == NoTier
      && o.request.value.mode == Subscription
      && o.request.value.customer == o.users[row.value].stripeCustomerId
      && o.request.value.price == priceId
      && o.request.value.metadataPriceId == priceId
      && o.request.value.metadataUserId == session.value.id
    ensures o.response.status == 200 ==> o.request.Some? && stripeSession.Returns?
    // once the session request is built, Stripe's answer decides the response; a throw is the framework's 500
    ensures o.request.Some? && stripeSession.Returns? ==> o.response == Response(200, RedirectUrl(stripeSession.value))
    ensures o.request.Some? && stripeSession.Throws? ==> o.response == Crashed
    // a failed customer creation ends the request before anything is stored
    ensures newCustomer.Throws? ==> o.users == users
    // every session request names a customer
    ensures o.request.Some? ==> o.request.value.customer.Some?
    // a caller who needs a customer: a failed creation, or a created customer with no row to store it on,
    // is the framework's 500 and no session is opened
    ensures session.Some? && session.value.email != "" ==>
      var row := FindFirst(users, IdIs(session.value.id));
      (row.None? || (users[row.value].subscription == NoTier && !Truthy(users[row.value].stripeCustomerId))) ==>
        && (newCustomer.Throws? ==> o == Outcome(Crashed, users, false, None))
        && (newCustomer.Returns? && row.None? ==> o == Outcome(Crashed, users, true, None))
  {
    if session.None? || session.value.email == "" then
      Outcome(Response(401, Error("Non autorisé")), users, false, None)
    else
      var userId := session.value.id;
      var row := FindFirst(users, IdIs(userId));
      if row.Some? && users[row.value].subscription != NoTier then
        Outcome(AlreadySubscribed, users, false, None)
      else
        var existing := if row.Some? then users[row.value].stripeCustomerId else None;
        if Truthy(existing) then
          OpenCheckout(users, userId, existing.value, priceId, stripeSession, false)
        else
          match newCustomer
          case Throws => Outcome(Crashed, users, false, None)
          case Returns(c) =>
            if row.None? then
              Outcome(Crashed, users, true, None)  // the customer exists at Stripe, but prisma.user.update throws
            else
              var i := row.value;
              OpenCheckout(users[i := users[i].(stripeCustomerId := Some(c))], userId, c, priceId, stripeSession, true)
  }

  /** A caller without a customer reference gets a new one stored on their row before the checkout is opened. */
  lemma MissingCustomerIsCreatedAndStored(users: Users, session: SessionUser, priceId: string,
                                          c: CustomerId, stripeSession: Call<string>)
    requires session.email != ""
    requires FindFirst(users, IdIs(session.id)).Some?
    requires var u := users[FindFirst(users, IdIs(session.id)).value];
      u.subscription == NoTier && !Truthy(u.stripeCustomerId)
    ensures var i := FindFirst(users, IdIs(session.id)).value;
      var o := Subscribe(users, Some(session), priceId, Returns(c), stripeSession);
      && o.customerCreated
      && o.users[i].stripeCustomerId == Some(c)
      && OthersUnchanged(users, o.users, i)
      && o.request.Some? && o.request.value.customer == Some(c)
  {
  }

  /** A caller who already has a customer reference reuses it: Stripe is not asked for a new one. */
  lemma ExistingCustomerIsReused(users: Users, session: SessionUser, priceId: string,
                                 newCustomer: Call<CustomerId>, stripeSession: Call<string>)
    requires session.email != ""
    requires FindFirst(users, IdIs(session.id)).Some?
    requires var u := users[FindFirst(users, IdIs(session.id)).value];
      u.subscription == NoTier && Truthy(u.stripeCustomerId)
    ensures var u := users[FindFirst(users, IdIs(session.id)).value];
      var o := Subscribe(users, Some(session), priceId, newCustomer, stripeSession);
      && !o.customerCreated
      && o.users == users
      && o.request.Some? && o.request.value.customer == u.stripeCustomerId
  {
  }
}

=== FILE: text.dfy ===
/** JavaScript string primitives the processing route relies on. */
module Text {

  /** The characters of JavaScript's `\s` class, which are also the ones `String.prototype.trim` removes. */
  predicate IsSpace(c: char) {
    c == '\t' || c == '\n' || c == '\U{B}' || c == '\U{C}' || c == '\r' || c == ' '
    || c == '\U{A0}' || c == '\U{1680}' || ('\U{2000}' <= c <= '\U{200A}')
    || c == '\U{2028}' || c == '\U{2029}' || c == '\U{202F}' || c == '\U{205F}'
    || c == '\U{3000}' || c == '\U{FEFF}'
  }

  /** Every character of `s` is white space. */
  predicate AllSpace(s: string) {
    forall i :: 0 <= i < |s| ==> IsSpace(s[i])
  }

  /** Neither end of `s` is white space. */
  predicate IsTrimmed(s: string) {
    s == [] || (!IsSpace(s[0]) && !IsSpace(s[|s| - 1]))
  }

  /** The end of the run of white space starting at `i` (a greedy `\s*`). */
  function SkipSpaces(s: string, i: nat): (j: nat)
    requires i <= |s|
    ensures i <= j <= |s|
    ensures forall k :: i <= k < j ==> IsSpace(s[k])
    ensures j == |s| || !IsSpace(s[j])
    decreases |s| - i
  {
    if i < |s| && IsSpace(s[i]) then SkipSpaces(s, i + 1) else i
  }

  /** The start of the run of white space that ends at `j`, looking no further back than `lo`. */
  function SkipSpacesBack(s: string, lo: nat, j: nat): (i: nat)
    requires lo <= j <= |s|
    ensures lo <= i <= j
    ensures forall k :: i <= k < j ==> IsSpace(s[k])
    ensures i == lo || !IsSpace(s[i - 1])
    decreases j
  {
    if j > lo && IsSpace(s[j - 1]) then SkipSpacesBack(s, lo, j - 1) else j
  }

  /** `String.prototype.trim`: what is left of `s` once the white space at both ends is cut. */
  function Trim(s: string): (r: string)
    ensures IsTrimmed(r)
    ensures |r| <= |s|
    ensures r == [] <==> AllSpace(s)
  {
    var lo := SkipSpaces(s, 0);
    var hi := SkipSpacesBack(s, lo, |s|);
    assert lo < |s| ==> lo < hi;
    s[lo..hi]
  }

  /**
   * The trimmed string is the middle of `s`: only white space is cut before and after it. With `IsTrimmed`
   * this pins the result down: the cut parts cannot end or start with anything but white space.
   */
  lemma TrimCutsOnlySpace(s: string) returns (lo: nat, hi: nat)
    ensures lo <= hi <= |s| && Trim(s) == s[lo..hi]
    ensures AllSpace(s[..lo]) && AllSpace(s[hi..])
  {
    lo := SkipSpaces(s, 0);
    hi := SkipSpacesBack(s, lo, |s|);
    assert forall k :: 0 <= k < |s[hi..]| ==> s[hi..][k] == s[hi + k];
  }

  /** Trimming a string whose ends are not white space returns it unchanged. */
  lemma TrimFixesTrimmed(s: string)
    requires IsTrimmed(s)
    ensures Trim(s) == s
  {
  }

  /** `trim` is idempotent. */
  lemma TrimIdempotent(s: string)
    ensures Trim(Trim(s)) == Trim(s)
  {
    TrimFixesTrimmed(Trim(s));
  }

  /** `String.prototype.length`: UTF-16 code units, two for a character outside the basic plane. */
  function Utf16Length(s: string): (n: nat)
    ensures |s| <= n <= 2 * |s|
    ensures (forall i :: 0 <= i < |s| ==> s[i] < '\U{10000}') ==> n == |s|
    ensures |s| == 1 ==> (n == 1 <==> s[0] < '\U{10000}')
  {
    if s == [] then 0 else (if s[0] < '\U{10000}' then 1 else 2) + Utf16Length(s[1..])
  }

  /** The length of a concatenation is the sum of the lengths, so each character counts on its own. */
  lemma {:induction false} Utf16LengthAppend(a: string, b: string)
    ensures Utf16Length(a + b) == Utf16Length(a) + Utf16Length(b)
    decreases |a|
  {
    if a == [] {
      assert a + b == b;
    } else {
      assert (a + b)[1..] == a[1..] + b;
      Utf16LengthAppend(a[1..], b);
    }
  }
}

=== FILE: unsubscribe.dfy ===
/** The unsubscribe route: cancel the caller's active Stripe subscription, then revoke the tier at once. */
module Unsubscribe {
  import opened Wrappers
  import opened Http
  import opened Accounts

  datatype Outcome = Outcome(response: Response, users: Users, cancelled: bool)

  const Unauthorized := Response(401, Error("Non autorisé."))
  const NoSubscription := Response(400, Error("Aucun abonnement trouvé."))
  const NoActiveSubscription := Response(400, Error("Aucun abonnement actif."))
  /** The catch-all: every exception inside the handler is answered with this. */
  const CancelFailed := Response(500, Error("Impossible d'annuler l'abonnement. Réessaie plus tard."))

  /**
   * `activeSubscription` is what listing the customer's active subscriptions gave (is the list non-empty),
   * `cancel` what cancelling the first of them did.
   */
  function Unsubscribe(users: Users, sessionUserId: Option<UserId>,
                       activeSubscription: Call<bool>, cancel: Call<()>): (o: Outcome)
    ensures !Truthy(sessionUserId) ==> o == Outcome(Unauthorized, users, false)
    ensures Truthy(sessionUserId) ==>
      var row := FindFirst(users, IdIs(sessionUserId.value));
      row.None? || !Truthy(users[row.value].stripeCustomerId) ==> o == Outcome(NoSubscription, users, false)
    // a caller with a customer reference: the Stripe answers decide the outcome
    ensures Truthy(sessionUserId) ==>
      var row := FindFirst(users, IdIs(sessionUserId.value));
      row.Some? && Truthy(users[row.value].stripeCustomerId) ==>
        && (activeSubscription == Returns(true) && cancel.Returns? ==> o.cancelled)
        && (activeSubscription == Returns(false) ==> o == Outcome(NoActiveSubscription, users, false))
        && (activeSubscription.Throws? || (activeSubscription == Returns(true) && cancel.Throws?) ==>
              o == Outcome(CancelFailed, users, false))
    ensures activeSubscription == Returns(false) ==> o.users == users && !o.cancelled
    ensures activeSubscription.Throws? || cancel.Throws? ==> o.users == users && !o.cancelled
    ensures o.response.status == 500 ==> o.response == CancelFailed
    ensures o.cancelled <==> o.response == Response(200, Unsubscribed)
    ensures o.cancelled ==>
      && Truthy(sessionUserId)
      && var i := FindFirst(users, IdIs(sessionUserId.value)).value;
      && Truthy(users[i].stripeCustomerId)
      && OthersUnchanged(users, o.users, i)
      && SameExceptPlan(users[i], o.users[i])
      && o.users[i].subscription == NoTier && !o.users[i].isUnlimited
    ensures !o.cancelled ==> o.users == users
  {
    if !Truthy(sessionUserId) then Outcome(Unauthorized, users, false)
    else
      match FindFirst(users, IdIs(sessionUserId.value))
      case None => Outcome(NoSubscription, users, false)
      case Some(i) =>
        if !Truthy(users[i].stripeCustomerId) then Outcome(NoSubscription, users, false)
        else
          match activeSubscription
          case Throws => Outcome(CancelFailed, users, false)
          case Returns(active) =>
            if !active then Outcome(NoActiveSubscription, users, false)
            else
              match cancel
              case Throws => Outcome(CancelFailed, users, false)
              case Returns(_) => Outcome(Response(200, Unsubscribed), users[i := Revoke(users[i])], true)
  }

  /** Unsubscribing again after a success leaves the table as the first success left it. */
  lemma RevokeTransitionIsIdempotent(users: Users, userId: UserId)
    requires userId != ""
    ensures var once := Unsubscribe(users, Some(userId), Returns(true), Returns(()));
      var twice := Unsubscribe(once.users, Some(userId), Returns(true), Returns(()));
      twice.users == once.users
  {
  }
}

=== FILE: upload.dfy ===
/**
 * The upload route: store the audio under a sanitised, id-prefixed name in the temporary directory, then hand
 * it to the processing route and relay its answer.
 */
module Upload {
  import opened Wrappers
  import opened Http
  import opened Accounts
  import opened FileNames
  import Extraction
  import P = Process

  /** The `file` field of the form. */
  datatype FormField = NoField | TextField(value: string) | FileField(name: string)

  datatype Outcome = Outcome(response: Response, files: set<string>, db: P.Db)

  const Unauthorized := Response(401, Error("Non autorisé."))
  const InvalidFile := Response(400, Error("Fichier invalide."))

  /** Relay the processing route's answer: its body when ok, otherwise a 500 carrying that body as detail. */
  function Relay(r: P.Outcome, files: set<string>): (o: Outcome)
    ensures o.db == r.db && o.files == files
    ensures r.response.IsOk() ==> o.response == Response(200, r.response.body)
    ensures !r.response.IsOk() ==> o.response == Response(500, ErrorWithDetail("Erreur dans process", r.response.body))
  {
    if r.response.IsOk() then Outcome(Response(200, r.response.body), files, r.db)
    else Outcome(Response(500, ErrorWithDetail("Erreur dans process", r.response.body)), files, r.db)
  }

  /**
   * The route as written: it forwards `filename: safeName`, the name that already carries the id, so the
   * processing route looks for `id-id-name`.
   */
  function Upload(files: set<string>, db: P.Db, tokenSubject: Option<string>, field: FormField,
                  id: string, services: P.Services): (o: Outcome)
    ensures !Truthy(tokenSubject) ==> o == Outcome(Unauthorized, files, db)
    ensures Truthy(tokenSubject) && !field.FileField? ==> o == Outcome(InvalidFile, files, db)
    ensures Truthy(tokenSubject) && field.FileField? ==> o.files == files + {SafeName(id, field.name)}
    ensures o.response.status in {200, 400, 401, 500}
  {
    if !Truthy(tokenSubject) then Outcome(Unauthorized, files, db)
    else if !field.FileField? then Outcome(InvalidFile, files, db)
    else
      var safeName := SafeName(id, field.name);
      var written := files + {safeName};
      Relay(P.Process(db, written, P.Request(Some(id), Some(safeName), tokenSubject), services), written)
  }

  /**
   * As written, the processing route never finds the uploaded file: every upload that reaches it fails with
   * 500 and changes no summary and no credit (unless a file of the doubled name happened to exist already).
   */
  lemma AsWrittenProcessingMissesTheUpload(files: set<string>, db: P.Db, tokenSubject: Option<string>,
                                           name: string, id: string, services: P.Services)
    requires Truthy(tokenSubject)
    requires P.TempPath(id, SafeName(id, name)) !in files
    ensures var o := Upload(files, db, tokenSubject, FileField(name), id, services);
      && SafeName(id, name) in o.files
      && o.response.status == 500
      && o.db == db
  {
    var safeName := SafeName(id, name);
    assert |P.TempPath(id, safeName)| > |safeName|;
  }

  /** A concrete upload: "a" is stored as "u1-a", and processing looks for "u1-u1-a". */
  lemma AsWrittenCounterexample(db: P.Db, services: P.Services)
    ensures var o := Upload({}, db, Some("user"), FileField("a"), "u1", services);
      && o.files == {"u1-a"}
      && o.response.status == 500
      && o.db == db
  {
    assert Sanitize("a") == "a";
    assert SafeName("u1", "a") == "u1-a";
    AsWrittenProcessingMissesTheUpload({}, db, Some("user"), "a", "u1", services);
  }

  /** The route as evidently intended: forward the sanitised name, to which processing adds the id again. */
  function UploadFixed(files: set<string>, db: P.Db, tokenSubject: Option<string>, field: FormField,
                       id: string, services: P.Services): (o: Outcome)
    ensures !Truthy(tokenSubject) ==> o == Outcome(Unauthorized, files, db)
    ensures Truthy(tokenSubject) && !field.FileField? ==> o == Outcome(InvalidFile, files, db)
    ensures Truthy(tokenSubject) && field.FileField? ==> o.files == files + {SafeName(id, field.name)}
    ensures o.response.status in {200, 400, 401, 500}
  {
    if !Truthy(tokenSubject) then Outcome(Unauthorized, files, db)
    else if !field.FileField? then Outcome(InvalidFile, files, db)
    else
      var safeName := SafeName(id, field.name);
      var written := files + {safeName};
      Relay(P.Process(db, written, P.Request(Some(id), Some(Sanitize(field.name)), tokenSubject), services), written)
  }

  /**
   * With the fix, processing reads exactly the file the upload wrote: when the services answer and the user
   * exists, the upload returns the extracted summary, stores it, and takes one credit.
   */
  lemma FixedProcessingReadsTheUpload(files: set<string>, db: P.Db, userId: UserId, name: string, id: string,
                                      transcript: string, chat: string -> Call<string>, reply: string)
    requires userId != "" && id != "" && Sanitize(name) != ""
    requires chat(transcript) == Returns(reply)
    requires FindFirst(db.users, IdIs(userId)).Some?
    ensures var o := UploadFixed(files, db, Some(userId), FileField(name), id, P.Services(Returns(transcript), chat, Returns(())));
      var i := FindFirst(db.users, IdIs(userId)).value;
      && o.response == Response(200, Processed(Extraction.Extract(reply).summary, Extraction.Extract(reply).tasks))
      && |o.db.summaries| == |db.summaries| + 1
      && o.db.summaries[|db.summaries|].userId == userId
      && o.db.users[i].credits == db.users[i].credits - 1
  {
    var written := files + {SafeName(id, name)};
    var req := P.Request(Some(id), Some(Sanitize(name)), Some(userId));
    assert P.TempPath(id, Sanitize(name)) == SafeName(id, name);
    P.ProcessSucceeds(db, written, req, transcript, chat, reply);
    var r := P.Process(db, written, req, P.Services(Returns(transcript), chat, Returns(())));
    assert r.response.IsOk();
    assert UploadFixed(files, db, Some(userId), FileField(name), id, P.Services(Returns(transcript), chat, Returns(())))
      == Relay(r, written);
  }
}

=== FILE: webhook.dfy ===
/**
 * The Stripe webhook: four event kinds, each a read-modify-write of the user table.
 * There is no record of delivered event ids, so a redelivered event is applied again.
 */
module Webhook {
  import opened Wrappers
  import opened Http
  import opened Accounts
  import opened Prices

  /** The parts of a Stripe event the handler reads. */
  datatype Event =
      // checkout.session.completed: the session's metadata
    | CheckoutCompleted(userId: Option<UserId>, packPriceId: Option<string>)
      // customer.subscription.created: the customer and the price of its first item
    | SubscriptionCreated(customer: CustomerId, planPriceId: string)
      // invoice.paid: the customer, and what retrieving the invoice's subscription from Stripe gave
    | InvoicePaid(customer: CustomerId, retrievedPrice: Call<string>)
      // customer.subscription.deleted
    | SubscriptionDeleted(customer: CustomerId)
      // any other event type
    | OtherEvent(eventType: string)

  datatype Outcome = Outcome(response: Response, users: Users)

  /** `{ received: true }`, the answer to every verified event that does not throw. */
  const Acknowledged := Response(200, Received)

  const BadSignature := Response(400, Text("Signature invalide"))

  /** `PRICE_TO_CREDITS[priceId ?? '']`, with 0 standing for the falsy `undefined`. */
  function PackGrant(priceId: Option<string>): (n: int)
    ensures n == 0 || n == 10 || n == 50
    ensures n != 0 <==> priceId.Some? && priceId.value in PackCredits
    ensures n != 0 ==> n == PackCredits[priceId.value]
  {
    var key := priceId.GetOr("");
    if key in PackCredits then PackCredits[key] else 0
  }

  /** checkout.session.completed: a one-time pack purchase credits the user named in the metadata. */
  function CompleteCheckout(users: Users, userId: Option<UserId>, priceId: Option<string>): (o: Outcome)
    ensures !Truthy(userId) || PackGrant(priceId) == 0 ==> o == Outcome(Acknowledged, users)
    ensures Truthy(userId) && PackGrant(priceId) != 0 && FindFirst(users, IdIs(userId.value)).None? ==>
      o == Outcome(Crashed, users)
    ensures Truthy(userId) && PackGrant(priceId) != 0 && FindFirst(users, IdIs(userId.value)).Some? ==>
      var i := FindFirst(users, IdIs(userId.value)).value;
      && o.response == Acknowledged
      && OthersUnchanged(users, o.users, i)
      && SameExceptCredits(users[i], o.users[i])
      && o.users[i].credits == users[i].credits + PackGrant(priceId)
  {
    var grant := PackGrant(priceId);
    if Truthy(userId) && grant != 0 then
      match FindFirst(users, IdIs(userId.value))
      case None => Outcome(Crashed, users)  // prisma.user.update throws on a missing row
      case Some(i) => Outcome(Acknowledged, users[i := users[i].(credits := users[i].credits + grant)])
    else
      Outcome(Acknowledged, users)
  }

  /** customer.subscription.created: the first user holding the customer gets the plan's tier; credits are left alone. */
  function ActivateSubscription(users: Users, customer: CustomerId, priceId: string): (o: Outcome)
    ensures o.response == Acknowledged
    ensures priceId !in SubscriptionPlans || FindFirst(users, CustomerIs(customer)).None? ==> o.users == users
    ensures priceId in SubscriptionPlans && FindFirst(users, CustomerIs(customer)).Some? ==>
      var i := FindFirst(users, CustomerIs(customer)).value;
      && OthersUnchanged(users, o.users, i)
      && SameExceptPlan(users[i], o.users[i])
      && o.users[i].subscription == SubscriptionPlans[priceId].tier
      && (o.users[i].isUnlimited <==> priceId == ProPrice)
  {
    if priceId !in SubscriptionPlans then Outcome(Acknowledged, users)
    else
      var plan := SubscriptionPlans[priceId];
      match FindFirst(users, CustomerIs(customer))
      case None => Outcome(Acknowledged, users)
      case Some(i) =>
        Outcome(Acknowledged,
                users[i := users[i].(subscription := plan.tier, isUnlimited := plan.allowance == Unlimited)])
  }

  /** invoice.paid: a monthly plan credits its allowance to the first user holding the customer; the tier is never touched. */
  function PayInvoice(users: Users, customer: CustomerId, retrievedPrice: Call<string>): (o: Outcome)
    ensures forall j :: 0 <= j < |users| ==> j < |o.users| && SameExceptCredits(users[j], o.users[j])
    ensures FindFirst(users, CustomerIs(customer)).None? ==> o == Outcome(Acknowledged, users)
    ensures FindFirst(users, CustomerIs(customer)).Some? && retrievedPrice.Throws? ==> o == Outcome(Crashed, users)
    ensures FindFirst(users, CustomerIs(customer)).Some? && retrievedPrice == Returns(StandardPrice) ==>
      var i := FindFirst(users, CustomerIs(customer)).value;
      && o.response == Acknowledged
      && OthersUnchanged(users, o.users, i)
      && o.users[i].credits == users[i].credits + 100
    ensures retrievedPrice.Returns? && retrievedPrice.value != StandardPrice ==> o == Outcome(Acknowledged, users)
  {
    match FindFirst(users, CustomerIs(customer))
    case None => Outcome(Acknowledged, users)
    case Some(i) =>
      match retrievedPrice
      case Throws => Outcome(Crashed, users)  // stripe.subscriptions.retrieve is not guarded
      case Returns(p) =>
        if p in SubscriptionPlans && SubscriptionPlans[p].allowance.Monthly? then
          var grant := SubscriptionPlans[p].allowance.credits;
          Outcome(Acknowledged, users[i := users[i].(credits := users[i].credits + grant)])
        else
          Outcome(Acknowledged, users)
  }

  /** customer.subscription.deleted: every user holding the customer loses the tier and keeps the credits. */
  function DeleteSubscription(users: Users, customer: CustomerId): (o: Outcome)
    ensures o.response == Acknowledged
    ensures |o.users| == |users|
    ensures forall j :: 0 <= j < |users| && users[j].stripeCustomerId == Some(customer) ==>
      SameExceptPlan(users[j], o.users[j]) && o.users[j].subscription == NoTier && !o.users[j].isUnlimited
    ensures forall j :: 0 <= j < |users| && users[j].stripeCustomerId != Some(customer) ==> o.users[j] == users[j]
  {
    Outcome(Acknowledged, RevokeCustomer(users, customer))
  }

  /** The webhook's POST: verify the signature, then apply the event's transition. */
  function Handle(users: Users, signatureValid: bool, e: Event): (o: Outcome)
    ensures !signatureValid ==> o == Outcome(BadSignature, users)
    ensures o.response == Acknowledged || o.response == BadSignature || o.response == Crashed
    ensures o.response != Acknowledged ==> o.users == users
    ensures |o.users| == |users|
    ensures forall j :: 0 <= j < |users| ==>
      && o.users[j].id == users[j].id
      && o.users[j].stripeCustomerId == users[j].stripeCustomerId
      && o.users[j].credits >= users[j].credits
      && (Entitled(users[j]) ==> Entitled(o.users[j]))
    // an event of any other type is acknowledged and changes nothing
    ensures signatureValid && e.OtherEvent? ==> o == Outcome(Acknowledged, users)
  {
    if !signatureValid then Outcome(BadSignature, users)
    else
      match e
      case CheckoutCompleted(userId, priceId) => CompleteCheckout(users, userId, priceId)
      case SubscriptionCreated(customer, priceId) => ActivateSubscription(users, customer, priceId)
      case InvoicePaid(customer, price) => PayInvoice(users, customer, price)
      case SubscriptionDeleted(customer) => DeleteSubscription(users, customer)
      case OtherEvent(_) => Outcome(Acknowledged, users)
  }

  /** No webhook transition can break `isUnlimited ==> subscription == pro` anywhere in the table. */
  lemma HandlePreservesEntitlement(users: Users, signatureValid: bool, e: Event)
    requires AllEntitled(users)
    ensures AllEntitled(Handle(users, signatureValid, e).users)
  {
  }

  /** A redelivered pack purchase is credited a second time: nothing records handled event ids. */
  lemma RedeliveredPurchaseCreditsTwice(users: Users, userId: UserId, priceId: string)
    requires userId != "" && priceId in PackCredits
    requires FindFirst(users, IdIs(userId)).Some?
    ensures var e := CheckoutCompleted(Some(userId), Some(priceId));
      var i := FindFirst(users, IdIs(userId)).value;
      Handle(Handle(users, true, e).users, true, e).users[i].credits == users[i].credits + 2 * PackCredits[priceId]
  {
  }

  /**
   * A second activation needs no cancellation in between: the webhook never checks for an active tier; only
   * the subscribe route does.
   */
  lemma ActivationOverwritesTier(users: Users, customer: CustomerId)
    requires FindFirst(users, CustomerIs(customer)).Some?
    ensures var i := FindFirst(users, CustomerIs(customer)).value;
      var standard := Handle(users, true, SubscriptionCreated(customer, StandardPrice)).users;
      var pro := Handle(standard, true, SubscriptionCreated(customer, ProPrice)).users;
      standard[i].subscription == Standard && pro[i].subscription == Pro && pro[i].isUnlimited
      && pro[i].credits == users[i].credits
  {
  }

  /** Re-subscribing after a cancellation succeeds: deletion resets the tier to none. */
  lemma ResubscribeAfterDeletion(users: Users, customer: CustomerId)
    requires FindFirst(users, CustomerIs(customer)).Some?
    ensures var i := FindFirst(users, CustomerIs(customer)).value;
      var cancelled := Handle(users, true, SubscriptionDeleted(customer)).users;
      var renewed := Handle(cancelled, true, SubscriptionCreated(customer, ProPrice)).users;
      cancelled[i].subscription == NoTier && renewed[i].subscription == Pro && renewed[i].isUnlimited
      && renewed[i].credits == users[i].credits
  {
  }

  /** A redelivered cancellation changes nothing more. */
  lemma DeletionIsIdempotent(users: Users, customer: CustomerId)
    ensures var once := Handle(users, true, SubscriptionDeleted(customer)).users;
      Handle(once, true, SubscriptionDeleted(customer)).users == once
  {
  }

  /** Activation and the first invoice commute: the final table does not depend on their arrival order. */
  lemma ActivationAndInvoiceCommute(users: Users, customer: CustomerId, priceId: string, retrieved: string)
    ensures var a := SubscriptionCreated(customer, priceId);
      var b := InvoicePaid(customer, Returns(retrieved));
      Handle(Handle(users, true, a).users, true, b).users == Handle(Handle(users, true, b).users, true, a).users
  {
    var a := SubscriptionCreated(customer, priceId);
    var b := InvoicePaid(customer, Returns(retrieved));
    var afterA := Handle(users, true, a).users;
    var afterB := Handle(users, true, b).users;
    assert FindFirst(afterA, CustomerIs(customer)) == FindFirst(users, CustomerIs(customer)) by {
      assert forall j :: 0 <= j < |afterA| ==> afterA[j].stripeCustomerId == users[j].stripeCustomerId;
    }
    assert FindFirst(afterB, CustomerIs(customer)) == FindFirst(users, CustomerIs(customer)) by {
      assert forall j :: 0 <= j < |afterB| ==> afterB[j].stripeCustomerId == users[j].stripeCustomerId;
    }
  }
}

=== FILE: wrappers.dfy ===
/** Optional values and the outcome of a call into a service the model does not contain. */
module Wrappers {

  datatype Option<+T> = None | Some(value: T) {

    /** The value, or `default` when absent (JavaScript's `x ?? default`). */
    function GetOr(default: T): T {
      if Some? then value else default
    }
  }

  /** JavaScript truthiness of an optional string: absent and "" are both falsy. */
  predicate Truthy(o: Option<string>) {
    o.Some? && o.value != ""
  }

  /** What a call into Stripe or OpenAI, or the summary insert, did: it returned a value or threw. */
  datatype Call<+T> = Returns(value: T) | Throws
}
